=== FILE: README.md ===
# commandcast: a Dafny model of the dispatch decisions

commandcast runs one shell command on many hosts over SSH. This project
models the deterministic layer around the concurrent fan-out. That layer
cleans the command text and parses the host file. It picks between the
host file and the comma-separated host list, loads keys, and aborts when no
key loads. It builds one host configuration per host and decides which lines
of interactive input get dispatched. It also covers the per-host session
logic: the dial address, the `user@host` label, lazy session opening, the
result of `ExecuteCmd` and `StopSession`.

The repository has two versions of the per-host logic, both declaring
`HostConfig` in package `main`:

- main.go's older variant (module `LegacyHost`) always appends `:22` to the
  host. Its `ExecuteCmd` returns one labelled string that folds a
  connection error into the same text as command output.
- hostconfig.go's variant (module `HostSession`) appends `:22` only when the
  host names no port. Its `ExecuteCmd` returns a `(stdout, error)` pair.

Both files declare the same `HostConfig` struct, `String()` and
`StopSession`. Module `Host` holds these once. The two `StartSession` and
`ExecuteCmd` versions are kept as two modules, and module `Variants`
relates them.

Modules:

- `Strings`: Go's `strings.TrimFunc`/`TrimSpace`, `Split` and `Join` on
  one-character separators, with their round trips.
- `Seqs`: `FilterMap`, the "append only the items that produced a value"
  loop shared by the host-file parser and `GetAuthKeys`.
- `Ssh`: the SSH library reduced to abstract outcomes. A `Network` value
  says whether dialling an address succeeds, whether a session can be opened
  on it, and what a command writes to stdout. Each dial attempt, each
  session actually opened, each run and each close is recorded as an
  `Event`, so the number of opened sessions can be counted. A failed
  `NewSession` leaves no event of its own.
- `Commandcast`: `CleanCommand`, the host-file parser, `ReadHostsFromFile`
  and `GetAuthKeys` from main.go.
- `ExecAction`: the `exec` action of main.go: flag defaults, host
  selection, config construction, the interactive loop and the whole run.
- `Host`, `LegacyHost`, `HostSession`, `Variants`: the per-host logic, as
  above.

Modelling choices:

- A Go `nil` slice or pointer is `None`. `ReadHostsFromFile` returns nil
  both for an unreadable file and for a file with no host line, since
  `results` stays nil until something is appended. Its `None` covers both.
- Whitespace is the ASCII set: space, `\t`, `\n`, `\v`, `\f`, `\r`.
- The host file's contents, the key loader (`PublicKeyFile`), the first
  positional argument, the interactive input lines, `$HOME` and `$USER` are
  parameters.
- Behaviour worth noting:
  - The host file is used only when it yields at least one host. A file
    that can be read but holds only blank lines falls back to `--hosts`.
  - The per-host timeout is stored in each configuration, but no session
    code reads it. Only `Execute`'s overall wait uses the timeout.
  - `Execute` never calls `StopSession`, so sessions are not closed.
  - `StopSession` closes the session but leaves it stored, so a later
    `ExecuteCmd` reuses the closed session instead of opening a new one.
  - The `--keys` default joins the two key paths with a comma and the run
    splits them on commas. A home directory containing a comma, such as
    `/home/a,b`, therefore yields four wrong key paths.
    `ExecAction.DefaultKeysSplit` holds only for a home directory without a
    comma.
- In single-command mode, the cleaned argument is dispatched even when it is
  `exit`. Only the interactive loop treats `exit` specially.
- When the interactive input runs out without an `exit`, the Go loop keeps
  reading empty strings at end of file and dispatches nothing more. The
  model ends with `exited == false`.

## Model

| member | source | states |
|---|---|---|
| Strings.Trim | main.go:72 | the trimmed text is no longer than the input and has no cut character at either end |
| Strings.TrimPadded | main.go:72 | the input is the trimmed text with runs of cut characters added on both sides |
| Strings.TrimOfPadded | main.go:83-84 | trimming is fully determined: whatever cut-character padding surrounds a bare text, trimming returns that text |
| Strings.TrimIdempotent | main.go:72 | trimming twice equals trimming once |
| Strings.TrimSpace | main.go:83-84 | the trimmed line is no longer than the input and has no whitespace at either end |
| Strings.Join | main.go:186-189 | the joined text starts with the first piece, followed by the separator when more pieces follow; `JoinSplit` and `SplitJoin` pin it as the inverse of `Split` |
| Strings.Split | main.go:82 | splitting yields at least one piece and no piece contains the separator |
| Strings.SplitCount | main.go:203 | there is exactly one piece more than there are separators |
| Strings.JoinSplit | main.go:203 | joining the pieces with the separator gives back the original string |
| Strings.SplitJoin | main.go:186-195 | separator-free pieces survive a join-then-split round trip |
| Strings.SplitAround | main.go:82 | splitting distributes over one separator occurrence |
| Seqs.FilterMapConcat | main.go:106-111 | keep-what-succeeds preserves input order: filtering a concatenation filters each part in turn |
| Seqs.FilterMapMember | main.go:106-111 | a value is kept exactly when some input element produced it |
| Seqs.FilterMapEmpty | main.go:106-111 | nothing is kept exactly when every element fails |
| Seqs.FilterMapTotal | main.go:106-111 | when every element succeeds, every value is kept in its own position |
| Ssh.Open | hostconfig.go:24-33 | a session exists exactly when both dialling and session opening succeed; otherwise the result is the dial error, or the session error when dialling succeeded; the trace is one dial, then one open exactly on success |
| Commandcast.CleanCommand | main.go:70-73 | the cleaned command is no longer than the input and has no whitespace at either end |
| Commandcast.CleanCommandIsTrimSpace | main.go:72 | trimming newlines before trimming whitespace changes nothing |
| Commandcast.CleanCommandPadded | main.go:71-73 | the input is the cleaned command padded with whitespace |
| Commandcast.CleanCommandIdempotent | main.go:71-73 | cleaning an already cleaned command changes nothing |
| Commandcast.NonBlank | main.go:83-84 | a line yields no host exactly when it trims to nothing; otherwise the host is the trimmed line, non-empty with no surrounding whitespace |
| Commandcast.ParseHostLines | main.go:81-87 | the hosts are exactly the trimmed non-blank lines of the raw text, in order; each is non-empty with no surrounding whitespace; there are no more hosts than lines |
| Commandcast.TrimNewlinesSubsumed | main.go:82-84 | stripping surrounding newlines before splitting does not change the hosts found |
| Commandcast.ParseTwoHostLines | main.go:82-86 | two host lines separated by a blank line and ended by a newline give exactly the two trimmed hosts, in order |
| Commandcast.NoHostsIffAllBlank | main.go:81-87 | no host is found exactly when every line is blank |
| Commandcast.ReadHostsFromFile | main.go:75-88 | nil exactly when the file is unreadable or every line is blank; otherwise the non-empty parsed host list |
| Commandcast.GetAuthKeys | main.go:103-114 | at most one method per key path; the result is empty exactly when no key loads |
| Commandcast.GetAuthKeysMember | main.go:106-111 | a method is returned exactly when some key path loads to it |
| Commandcast.GetAuthKeysKeepsOrder | main.go:106-111 | loaded keys keep the order of their paths |
| Commandcast.GetAuthKeysAllLoad | main.go:106-111 | when every key loads, all are kept, each in its own position |
| ExecAction.DefaultKeys | main.go:186-189 | the `--keys` default is the DSA key path, a comma, then the RSA key path, both under the home directory |
| ExecAction.DefaultFlags | main.go:156-192 | no contract of its own; `DefaultHostSelection` and `DefaultRun` pin what the defaults select and build |
| ExecAction.DefaultKeysSplit | main.go:186-195 | the default key list splits back into the DSA and RSA key paths under the home directory |
| ExecAction.DefaultHostSelection | main.go:161-166 | without a host file, the default `--hosts` selects exactly `localhost` |
| ExecAction.DefaultRun | main.go:155-227 | with default flags and a loadable RSA key, the run dispatches to one `localhost` configuration as `$USER` with the 15-second timeout |
| ExecAction.SelectHosts | main.go:197-204 | the file's hosts win when the file yields one; otherwise the comma list's pieces rejoin to the list, number commas+1 and contain no comma; with neither, there are no hosts |
| ExecAction.CommaListNotTrimmed | main.go:202-204 | comma-list pieces are not trimmed: "a, b" gives "a" and " b" |
| ExecAction.BuildConfigs | main.go:212-227 | one configuration per host, entry i for host i, all sharing user, timeout and client configuration, none with a session |
| ExecAction.Interact | main.go:245-260 | every dispatched command is non-empty, not `exit` and cleaned; there are no more commands than lines; the loop ends through `exit` exactly when some line cleans to `exit` |
| ExecAction.InteractWithoutExit | main.go:249-258 | without an `exit` line, exactly the non-empty cleaned lines are dispatched, in order |
| ExecAction.InteractStopsAtExit | main.go:252-254 | nothing after the first `exit` line is dispatched |
| ExecAction.PaddedExitExits | main.go:249-254 | `exit` surrounded by whitespace still ends the loop |
| ExecAction.Commands | main.go:233-260 | single-command mode dispatches the cleaned argument when not empty, and nothing otherwise; interactive mode dispatches what the loop accepts |
| ExecAction.RunExec | main.go:194-227 | the run aborts exactly when no key loads; otherwise it builds one configuration per selected host carrying the loaded, non-empty key list, and dispatches the run's commands |
| LegacyHost.DialAddress | main.go:31 | the address is the host followed by ":22", whatever the host already holds |
| LegacyHost.StartSession | main.go:30-41 | a session is stored exactly when dialling and opening succeed; a dial error is returned and leaves the configuration unchanged, and a session error is returned and stores a nil session; the library calls are one dial, then one open exactly when it succeeds |
| LegacyHost.ExecuteCmd | main.go:51-63 | the output is the host header followed by the open error's text or by the command's stdout; without a stored session, a successful open stores the new session to host:22, runs the command on it, and is the only open; no new session when one is stored |
| LegacyHost.Header | main.go:54 | no contract of its own; `LegacyHost.ExecuteCmd` states that every output starts with it, and `Variants.LegacyRendersTagged` states that the rest is the tagged result |
| LegacyHost.ErrorIndistinguishableFromOutput | main.go:53-62 | a connection error and a command output with the same text give identical results |
| HostSession.DialAddress | hostconfig.go:20-23 | the address always contains ':' and starts with the host; it equals the host when the host has a port, and otherwise splits into the host and "22" |
| HostSession.DialAddressIdempotent | hostconfig.go:20-23 | defaulting the port twice is defaulting it once |
| Host.Label | hostconfig.go:59-61 | the label is the user, then '@', then the host, for every input |
| Host.LabelSplit | hostconfig.go:59-61 | user and host can be read back from the label when neither contains '@' |
| HostSession.StartSession | hostconfig.go:19-34 | a session is stored exactly when dialling and opening succeed; a dial error is returned and leaves the configuration unchanged, and a session error is returned and stores a nil session; the library calls are one dial, then one open exactly when it succeeds |
| HostSession.ExecuteCmd | hostconfig.go:44-56 | the result has an error exactly when no session was stored and opening one failed, and then stdout is empty, the error is the dial error or else the session error, and the only library call is the dial; otherwise it is the run's stdout with no error, whatever the run reported; no new session when one is stored |
| HostSession.AtMostOneSession | hostconfig.go:45-49 | however many commands run on one configuration, at most one session is opened, and none when one is already stored |
| Host.StopSession | hostconfig.go:37-41 | without a session nothing happens; otherwise the stored session is closed and stays stored |
| Host.StopSessionIdempotent | hostconfig.go:37-41 | stopping twice leaves the same state as stopping once |
| HostSession.ExecuteAfterStop | hostconfig.go:37-53 | after a stop, a command runs on the closed session and no new session is opened |
| Variants.DialAddressesCompared | hostconfig.go:20-23 | both variants dial the same address for a host without a port; with a port, the older variant appends a second ":22" |
| Variants.LegacyRendersTagged | hostconfig.go:44-56 | the older variant's output is the tagged result rendered under the host header, with the same library calls |

## Left out

- `Execute` (main.go:116-137): the goroutine per host, the race against
  `time.After` and the results channel of size 10 are concurrency and
  timing. They are not modelled.
- `PublicKeyFile` (main.go:90-101): reading and parsing a key file is a
  library call. It is the abstract `loadKey` parameter.
- `ssh.Dial`, `NewSession`, `Session.Run` and `Session.Close` are abstract
  outcomes of the `Network` parameter.
- The SSH library lets a session run only one command. The model cannot
  express this. `Network.run` depends only on the session value and the
  command, and a session value does not record earlier runs. So for a
  second or later command on one stored session, `HostSession.ExecuteEach`
  gives results the library would not return.
- The program never reuses a session. `Execute` (main.go:122-125) hands each
  goroutine a copy of the host configuration, so the session `ExecuteCmd`
  stores is lost with the copy. In interactive mode, every command opens a
  new connection and session on every host. `HostSession.AtMostOneSession`
  and the lazy opening in `ExecuteCmd` describe the method on its own, not
  the program's behaviour.
- `ioutil.ReadFile`, reading standard input and `os.Getenv` are I/O. Their
  results are parameters.
- The interactive loop creates a new `bufio.Reader` for every line, which
  can discard input already buffered. The model assumes each read yields
  the next line.
- The `cli` wiring (main.go:139-185, 190-193), apart from the flag defaults,
  which `ExecAction.DefaultFlags` holds. The printing of keys, hosts and the
  `>>>` prompt (main.go:229-237), and the colour functions (main.go:17-18) are
  presentation. The host label's colour is taken as the identity.
- Go's `strings.TrimSpace` also strips non-ASCII Unicode spaces. The model
  strips only ASCII whitespace.
- Each configuration gets its own `ssh.ClientConfig` pointer in Go
  (main.go:215-218). The model compares client configurations by value.

=== FILE: commandcast.dfy ===
/** The deterministic helpers of main.go: command cleaning, host-file
    parsing and key loading. File contents and key loading are parameters:
    the model never reads a file. */
module Commandcast {
  import opened Wrappers
  import opened Strings
  import opened Seqs
  import opened Ssh

  /** `CleanCommand`: strip surrounding newlines, then surrounding
      whitespace. The result is no longer than the input and has no
      whitespace at either end. */
  function CleanCommand(cmd: string): (r: string)
    ensures |r| <= |cmd|
    ensures Bare(r, IsSpace)
  {
    TrimSpace(Trim(cmd, IsNewline))
  }

  /** The newline pass is subsumed by the whitespace pass. */
  lemma CleanCommandIsTrimSpace(cmd: string)
    ensures CleanCommand(cmd) == TrimSpace(cmd)
  {
    var t := Trim(cmd, IsNewline);
    var r := TrimSpace(t);
    TrimPadded(cmd, IsNewline);
    TrimPadded(t, IsSpace);
    NewlinePaddingIsSpace(cmd, t, r);
    TrimOfPadded(cmd, r, IsSpace);
  }

  /** The input is the cleaned command padded with whitespace. */
  lemma CleanCommandPadded(cmd: string)
    ensures Padded(cmd, CleanCommand(cmd), IsSpace)
  {
    CleanCommandIsTrimSpace(cmd);
    TrimPadded(cmd, IsSpace);
  }

  lemma NewlinePaddingIsSpace(s: string, t: string, r: string)
    requires Padded(s, t, IsNewline)
    requires Padded(t, r, IsSpace)
    ensures Padded(s, r, IsSpace)
  {
    var p1, s1 :| All(p1, IsNewline) && All(s1, IsNewline) && s == p1 + t + s1;
    var p2, s2 :| All(p2, IsSpace) && All(s2, IsSpace) && t == p2 + r + s2;
    AllConcat(p1, p2, IsSpace);
    AllConcat(s2, s1, IsSpace);
    AppendRegroup(p1, p2, r, s2, s1);
  }

  /** Cleaning an already clean command changes nothing. */
  lemma CleanCommandIdempotent(cmd: string)
    ensures CleanCommand(CleanCommand(cmd)) == CleanCommand(cmd)
  {
    CleanCommandIsTrimSpace(cmd);
    CleanCommandIsTrimSpace(CleanCommand(cmd));
    TrimIdempotent(cmd, IsSpace);
  }

  /** A line's host name: the trimmed line, unless that is empty. */
  function NonBlank(line: string): (host: Option<string>)
    ensures host.None? <==> TrimSpace(line) == ""
    ensures host.Some? ==> host.value != "" && Bare(host.value, IsSpace)
    ensures host.Some? ==> host.value == TrimSpace(line)
  {
    var h := TrimSpace(line);
    if h == "" then None else Some(h)
  }

  /** Every line trims to nothing. */
  predicate AllBlank(lines: seq<string>) {
    forall i :: 0 <= i < |lines| ==> TrimSpace(lines[i]) == ""
  }

  /** The line-parsing body of `ReadHostsFromFile`: strip surrounding
      newlines, split on '\n', keep the trimmed non-blank lines. The hosts
      are exactly the non-blank lines of the raw text, trimmed, in order,
      each non-empty and without surrounding whitespace, and there are no
      more of them than lines. */
  function ParseHostLines(contents: string): (hosts: seq<string>)
    ensures hosts == FilterMap(Split(contents, '\n'), NonBlank)
    ensures |hosts| <= Count(contents, '\n') + 1
    ensures forall i :: 0 <= i < |hosts| ==> hosts[i] != "" && Bare(hosts[i], IsSpace)
  {
    var lines := Split(contents, '\n');
    SplitCount(contents, '\n');
    TrimNewlinesSubsumed(contents);
    NonBlankHosts(lines);
    FilterMap(Split(Trim(contents, IsNewline), '\n'), NonBlank)
  }

  /** Stripping surrounding newlines first changes nothing: the blank lines
      they would produce are dropped anyway. */
  lemma TrimNewlinesSubsumed(contents: string)
    ensures FilterMap(Split(Trim(contents, IsNewline), '\n'), NonBlank) == FilterMap(Split(contents, '\n'), NonBlank)
  {
    var t := Trim(contents, IsNewline);
    TrimPadded(contents, IsNewline);
    var pre, suf :| All(pre, IsNewline) && All(suf, IsNewline) && contents == pre + t + suf;
    AppendAssoc(pre, t, suf);
    DropLeadingNewlines(pre, t + suf);
    DropTrailingNewlines(t, suf);
  }

  /** Every kept host is a non-empty trimmed line. */
  lemma NonBlankHosts(lines: seq<string>)
    ensures forall i :: 0 <= i < |FilterMap(lines, NonBlank)| ==>
      FilterMap(lines, NonBlank)[i] != "" && Bare(FilterMap(lines, NonBlank)[i], IsSpace)
  {
    var hosts := FilterMap(lines, NonBlank);
    forall i | 0 <= i < |hosts| ensures hosts[i] != "" && Bare(hosts[i], IsSpace) {
      FilterMapMember(lines, NonBlank, hosts[i]);
      var j :| 0 <= j < |lines| && NonBlank(lines[j]) == Some(hosts[i]);
    }
  }

  lemma NonBlankEmpty()
    ensures NonBlank("") == None
  {
    assert TrimLeft("", IsSpace) == "";
  }

  lemma {:induction false} DropLeadingNewlines(pre: string, x: string)
    requires All(pre, IsNewline)
    ensures FilterMap(Split(pre + x, '\n'), NonBlank) == FilterMap(Split(x, '\n'), NonBlank)
    decreases |pre|
  {
    if |pre| == 0 {
      assert pre + x == x;
    } else {
      var y := pre[1..] + x;
      assert IsNewline(pre[0]);
      assert pre + x == [pre[0]] + y;
      SplitLeadingSep(y, '\n');
      SkipBlankLine(Split(y, '\n'));
      DropLeadingNewlines(pre[1..], x);
    }
  }

  lemma SkipBlankLine(lines: seq<string>)
    ensures FilterMap([""] + lines, NonBlank) == FilterMap(lines, NonBlank)
  {
    FilterMapConcat([""], lines, NonBlank);
    NonBlankEmpty();
    FilterMapSingle("", NonBlank);
  }

  lemma {:induction false} DropTrailingNewlines(x: string, suf: string)
    requires All(suf, IsNewline)
    ensures FilterMap(Split(x + suf, '\n'), NonBlank) == FilterMap(Split(x, '\n'), NonBlank)
    decreases |suf|
  {
    if |suf| == 0 {
      assert x + suf == x;
    } else {
      var y := x + suf[..|suf| - 1];
      assert x + suf == y + ['\n'] + "";
      SplitAround(y, "", '\n');
      FilterMapConcat(Split(y, '\n'), Split("", '\n'), NonBlank);
      NonBlankEmpty();
      FilterMapSingle("", NonBlank);
      DropTrailingNewlines(x, suf[..|suf| - 1]);
    }
  }

  /** Two host lines separated by a blank line and ended by a newline, such
      as "  a.example.com \n\n b.example.com  \n": the blank lines are
      dropped, each host is trimmed and the order is kept. */
  lemma ParseTwoHostLines(a: string, b: string)
    requires '\n' !in a && '\n' !in b
    requires TrimSpace(a) != "" && TrimSpace(b) != ""
    ensures ParseHostLines(a + "\n\n" + b + "\n") == [TrimSpace(a), TrimSpace(b)]
  {
    TwoLinesSplit(a, b);
    TwoLinesKept(a, b);
  }

  lemma TwoLinesSplit(a: string, b: string)
    requires '\n' !in a && '\n' !in b
    ensures Split(a + "\n\n" + b + "\n", '\n') == [a, "", b, ""]
  {
    var tail := b + ['\n'] + "";
    var mid := "" + ['\n'] + tail;
    assert a + "\n\n" + b + "\n" == a + ['\n'] + mid;
    SplitAround(b, "", '\n');
    SplitAround("", tail, '\n');
    SplitAround(a, mid, '\n');
    SplitNoSep(a, '\n');
    SplitNoSep(b, '\n');
  }

  lemma TwoLinesKept(a: string, b: string)
    requires TrimSpace(a) != "" && TrimSpace(b) != ""
    ensures FilterMap([a, "", b, ""], NonBlank) == [TrimSpace(a), TrimSpace(b)]
  {
    var tail := [b] + [""];
    assert [a, "", b, ""] == [a] + ([""] + tail);
    FilterMapConcat([a], [""] + tail, NonBlank);
    FilterMapSingle(a, NonBlank);
    SkipBlankLine(tail);
    FilterMapConcat([b], [""], NonBlank);
    FilterMapSingle(b, NonBlank);
    SkipBlankLine([]);
    assert [""] + [] == [""];
  }

  /** No host is found exactly when every line is blank. */
  lemma NoHostsIffAllBlank(lines: seq<string>)
    ensures FilterMap(lines, NonBlank) == [] <==> AllBlank(lines)
  {
    FilterMapEmpty(lines, NonBlank);
    assert (forall i :: 0 <= i < |lines| ==> NonBlank(lines[i]).None?) <==> AllBlank(lines);
  }

  /** `ReadHostsFromFile` given the file's contents (`None`: unreadable).
      The Go function returns a nil slice both when the file cannot be read
      and when no line holds a host, so `None` covers both. */
  function ReadHostsFromFile(contents: Option<string>): (r: Option<seq<string>>)
    ensures r.None? <==> contents.None? || AllBlank(Split(contents.value, '\n'))
    ensures r.Some? ==> contents.Some? && |r.value| > 0 && r.value == ParseHostLines(contents.value)
  {
    match contents
    case None => None
    case Some(text) =>
      var hosts := ParseHostLines(text);
      NoHostsIffAllBlank(Split(text, '\n'));
      if hosts == [] then None else Some(hosts)
  }

  /** Not one of the key paths loads. */
  predicate NoKeyLoads(keys: seq<string>, load: string -> Option<AuthMethod>)
  {
    forall i :: 0 <= i < |keys| ==> load(keys[i]).None?
  }

  /** `GetAuthKeys` with `load` standing for reading and parsing one key
      file: at most one method per path, and none exactly when no key
      loads. */
  function GetAuthKeys(keys: seq<string>, load: string -> Option<AuthMethod>): (methods: seq<AuthMethod>)
    ensures |methods| <= |keys|
    ensures |methods| == 0 <==> NoKeyLoads(keys, load)
  {
    FilterMapEmpty(keys, load);
    FilterMap(keys, load)
  }

  /** A method is kept exactly when some path loads to it. */
  lemma GetAuthKeysMember(keys: seq<string>, load: string -> Option<AuthMethod>, m: AuthMethod)
    ensures m in GetAuthKeys(keys, load) <==> exists i :: 0 <= i < |keys| && load(keys[i]) == Some(m)
  {
    FilterMapMember(keys, load, m);
  }

  /** Loaded keys keep the order of their paths. */
  lemma GetAuthKeysKeepsOrder(a: seq<string>, b: seq<string>, load: string -> Option<AuthMethod>)
    ensures GetAuthKeys(a + b, load) == GetAuthKeys(a, load) + GetAuthKeys(b, load)
  {
    FilterMapConcat(a, b, load);
  }

  /** When every key loads, all of them are kept, each in its own position. */
  lemma GetAuthKeysAllLoad(keys: seq<string>, load: string -> Option<AuthMethod>)
    requires forall i :: 0 <= i < |keys| ==> load(keys[i]).Some?
    ensures |GetAuthKeys(keys, load)| == |keys|
    ensures forall i :: 0 <= i < |keys| ==> load(keys[i]) == Some(GetAuthKeys(keys, load)[i])
  {
    FilterMapTotal(keys, load);
  }
}

=== FILE: exec_action.dfy ===
/** The decision logic of the `exec` sub-command in main.go: which hosts to
    use, which keys, which host configurations to build, and which commands
    get dispatched, in single-command and interactive mode. Reading the host
    file, loading keys and reading standard input are inputs of the model. */
module ExecAction {
  import opened Wrappers
  import opened Strings
  import opened Seqs
  import opened Ssh
  import opened Commandcast
  import Host

  /** Default of `--hosts`. */
  const DefaultHosts: string := "localhost"

  /** Default of `--timeout`, in seconds. */
  const DefaultTimeout: int := 15

  /** Default of `--keys`: the DSA and RSA keys under `$HOME/.ssh`. */
  function DefaultKeys(home: string): (keys: string)
    ensures keys == home + "/.ssh/id_dsa," + home + "/.ssh/id_rsa"
  {
    var paths := [home + "/.ssh/id_dsa", home + "/.ssh/id_rsa"];
    assert paths[1..] == [paths[1]];
    assert Join(paths, ',') == paths[0] + [','] + paths[1];
    assert paths[0] + [','] == home + "/.ssh/id_dsa,";
    AppendAssoc(home + "/.ssh/id_dsa,", home, "/.ssh/id_rsa");
    Join(paths, ',')
  }

  /** The default key list splits back into its two paths. */
  lemma DefaultKeysSplit(home: string)
    requires ',' !in home
    ensures Split(DefaultKeys(home), ',') == [home + "/.ssh/id_dsa", home + "/.ssh/id_rsa"]
  {
    var paths := [home + "/.ssh/id_dsa", home + "/.ssh/id_rsa"];
    assert ',' !in "/.ssh/id_dsa" && ',' !in "/.ssh/id_rsa";
    SplitJoin(paths, ',');
  }

  /** The command-line flags of `exec`. */
  datatype Flags = Flags(
    interactive: bool,
    hosts: string,
    hostFile: string,
    user: string,
    timeout: int,
    keys: string)

  /** The flags when none is given; `userEnv` is `$USER` (empty if unset). */
  function DefaultFlags(home: string, userEnv: string): Flags
  {
    Flags(false, DefaultHosts, "", userEnv, DefaultTimeout, DefaultKeys(home))
  }

  /** Without a host file, the default `--hosts` selects the single host
      `localhost`, whatever the (unread) file would contain. */
  lemma DefaultHostSelection(home: string, userEnv: string, contents: Option<string>)
    ensures var f := DefaultFlags(home, userEnv);
      SelectHosts(f.hostFile, contents, f.hosts) == ["localhost"]
  {
    SplitNoSep(DefaultHosts, ',');
  }

  /** What the world supplies: the host file's contents (`None` when it
      cannot be read), the key loader, the first positional argument (empty
      when absent) and the lines typed in interactive mode. */
  datatype Inputs = Inputs(
    hostFileContents: Option<string>,
    loadKey: string -> Option<AuthMethod>,
    firstArg: string,
    stdin: seq<string>)

  /** The run either aborts for lack of keys, or dispatches every command to
      every configuration. */
  datatype ExecOutcome =
    | MissingKeys
    | Dispatch(configs: seq<Host.HostConfig>, commands: seq<string>)

  /** Host selection: the host file wins when it yields at least one host;
      otherwise the comma list is split as is (pieces are not trimmed and may
      be empty); with neither, there are no hosts. */
  function SelectHosts(hostFile: string, contents: Option<string>, hostString: string): (hosts: seq<string>)
    ensures hostFile != "" && contents.Some? && !AllBlank(Split(contents.value, '\n')) ==>
      && hosts == ParseHostLines(contents.value)
      && |hosts| > 0
    ensures (hostFile == "" || contents.None? || AllBlank(Split(contents.value, '\n'))) ==>
      if hostString == "" then hosts == []
      else
        && Join(hosts, ',') == hostString
        && |hosts| == Count(hostString, ',') + 1
        && forall i :: 0 <= i < |hosts| ==> ',' !in hosts[i]
  {
    var fromFile := if hostFile != "" then ReadHostsFromFile(contents) else None;
    if fromFile.Some? then fromFile.value
    else if hostString != "" then
      JoinSplit(hostString, ',');
      SplitCount(hostString, ',');
      Split(hostString, ',')
    else []
  }

  /** The comma list is split without trimming: "a, b" gives "a" and " b". */
  lemma CommaListNotTrimmed()
    ensures SelectHosts("", None, "a, b") == ["a", " b"]
  {
    assert "a, b" == "a" + [','] + " b";
    SplitPair("a", " b", ',');
  }

  /** Config construction: one configuration per host, in host order, all
      sharing user, timeout and client configuration, none with a session. */
  function BuildConfigs(hosts: seq<string>, user: string, timeout: int, auth: seq<AuthMethod>): (configs: seq<Host.HostConfig>)
    ensures |configs| == |hosts|
    ensures forall i :: 0 <= i < |hosts| ==>
      && configs[i].host == hosts[i]
      && configs[i].user == user
      && configs[i].timeout == timeout
      && configs[i].client == ClientConfig(user, auth)
      && configs[i].session.None?
  {
    if |hosts| == 0 then []
    else
      [Host.HostConfig(hosts[0], user, timeout, ClientConfig(user, auth), None)]
      + BuildConfigs(hosts[1..], user, timeout, auth)
  }

  /** What interactive mode dispatched, and whether it left through `exit`
      (otherwise the input ran out). */
  datatype Interaction = Interaction(commands: seq<string>, exited: bool)

  /** A command the loop may dispatch: non-empty, not `exit`, cleaned. */
  predicate Dispatchable(cmd: string) {
    cmd != "" && cmd != "exit" && Bare(cmd, IsSpace)
  }

  /** No line cleans to `exit`. */
  predicate NoExit(lines: seq<string>) {
    forall i :: 0 <= i < |lines| ==> CleanCommand(lines[i]) != "exit"
  }

  /** Every command of a list may be dispatched. */
  predicate AllDispatchable(cmds: seq<string>) {
    forall i :: 0 <= i < |cmds| ==> Dispatchable(cmds[i])
  }

  /** The interactive loop: each line is cleaned; `exit` ends the loop,
      an empty line is skipped, anything else is dispatched. */
  function Interact(lines: seq<string>): (r: Interaction)
    ensures |r.commands| <= |lines|
    ensures AllDispatchable(r.commands)
    ensures r.exited <==> !NoExit(lines)
  {
    if |lines| == 0 then Interaction([], false)
    else
      var cmd := CleanCommand(lines[0]);
      if cmd == "exit" then Interaction([], true)
      else
        var rest := Interact(lines[1..]);
        NoExitCons(lines);
        DispatchableCons(cmd, rest.commands);
        Interaction((if cmd != "" then [cmd] else []) + rest.commands, rest.exited)
  }

  lemma NoExitCons(lines: seq<string>)
    requires |lines| > 0
    ensures NoExit(lines) <==> CleanCommand(lines[0]) != "exit" && NoExit(lines[1..])
  {
    var tail := lines[1..];
    if NoExit(lines) {
      forall i | 0 <= i < |tail| ensures CleanCommand(tail[i]) != "exit" {
        assert tail[i] == lines[i + 1];
      }
    }
    if CleanCommand(lines[0]) != "exit" && NoExit(tail) {
      forall i | 0 <= i < |lines| ensures CleanCommand(lines[i]) != "exit" {
        if i > 0 {
          assert lines[i] == tail[i - 1];
        }
      }
    }
  }

  /** A cleaned line other than `exit`, kept when not empty, in front of
      dispatchable commands, leaves them all dispatchable. */
  lemma DispatchableCons(cmd: string, rest: seq<string>)
    requires cmd != "exit" && Bare(cmd, IsSpace)
    requires AllDispatchable(rest)
    ensures AllDispatchable((if cmd != "" then [cmd] else []) + rest)
  {
    var all := (if cmd != "" then [cmd] else []) + rest;
    if cmd != "" {
      assert forall i :: 1 <= i < |all| ==> all[i] == rest[i - 1];
    } else {
      assert all == rest;
    }
  }

  /** A line's command: the cleaned line, unless that is empty. */
  function Command(line: string): Option<string>
  {
    var cmd := CleanCommand(line);
    if cmd == "" then None else Some(cmd)
  }

  /** Without an `exit`, every non-empty cleaned line is dispatched, in order. */
  lemma {:induction false} InteractWithoutExit(lines: seq<string>)
    requires NoExit(lines)
    ensures Interact(lines) == Interaction(FilterMap(lines, Command), false)
    decreases |lines|
  {
    if |lines| > 0 {
      NoExitCons(lines);
      InteractWithoutExit(lines[1..]);
    }
  }

  /** The first `exit` ends the session: nothing after it is dispatched. */
  lemma {:induction false} InteractStopsAtExit(before: seq<string>, exit: string, after: seq<string>)
    requires NoExit(before)
    requires CleanCommand(exit) == "exit"
    ensures Interact(before + [exit] + after) == Interaction(Interact(before).commands, true)
    decreases |before|
  {
    var lines := before + [exit] + after;
    if |before| == 0 {
      assert lines[0] == exit;
    } else {
      assert lines[0] == before[0];
      DropFirstConcat(before + [exit], after);
      DropFirstConcat(before, [exit]);
      NoExitCons(before);
      InteractStopsAtExit(before[1..], exit, after);
    }
  }

  /** `exit` surrounded by whitespace still exits. */
  lemma PaddedExitExits(pre: string, suf: string)
    requires All(pre, IsSpace) && All(suf, IsSpace)
    ensures CleanCommand(pre + "exit" + suf) == "exit"
  {
    assert Bare("exit", IsSpace);
    CleanCommandIsTrimSpace(pre + "exit" + suf);
    TrimOfPadded(pre + "exit" + suf, "exit", IsSpace);
  }

  /** The commands of one run: the cleaned first argument when not empty,
      or what the interactive loop dispatched. */
  function Commands(interactive: bool, inputs: Inputs): (cmds: seq<string>)
    ensures !interactive ==>
      if CleanCommand(inputs.firstArg) == "" then cmds == [] else cmds == [CleanCommand(inputs.firstArg)]
    ensures interactive ==> cmds == Interact(inputs.stdin).commands
    ensures forall i :: 0 <= i < |cmds| ==> cmds[i] != "" && Bare(cmds[i], IsSpace)
    ensures !interactive ==> |cmds| <= 1
  {
    if !interactive then
      var cmd := CleanCommand(inputs.firstArg);
      if cmd != "" then [cmd] else []
    else
      Interact(inputs.stdin).commands
  }

  /** The `exec` action. It aborts before building any configuration when no
      key loads; otherwise it builds one configuration per selected host,
      each carrying the loaded keys, and dispatches the run's commands. */
  function RunExec(flags: Flags, inputs: Inputs): (r: ExecOutcome)
    ensures r.MissingKeys? <==> NoKeyLoads(Split(flags.keys, ','), inputs.loadKey)
    ensures r.Dispatch? ==>
      var hosts := SelectHosts(flags.hostFile, inputs.hostFileContents, flags.hosts);
      && |r.configs| == |hosts|
      && forall i :: 0 <= i < |hosts| ==>
        && r.configs[i].host == hosts[i]
        && r.configs[i].user == flags.user
        && r.configs[i].timeout == flags.timeout
        && r.configs[i].client == ClientConfig(flags.user, GetAuthKeys(Split(flags.keys, ','), inputs.loadKey))
        && r.configs[i].client.auth != []
        && r.configs[i].session.None?
    ensures r.Dispatch? ==> r.commands == Commands(flags.interactive, inputs)
  {
    var auth := GetAuthKeys(Split(flags.keys, ','), inputs.loadKey);
    if |auth| < 1 then MissingKeys
    else
      var hosts := SelectHosts(flags.hostFile, inputs.hostFileContents, flags.hosts);
      Dispatch(BuildConfigs(hosts, flags.user, flags.timeout, auth), Commands(flags.interactive, inputs))
  }

  /** With every flag at its default and the RSA key loadable, the run
      dispatches to exactly one configuration: `localhost`, as `$USER`,
      with the 15-second timeout and no session yet. */
  lemma DefaultRun(home: string, userEnv: string, inputs: Inputs)
    requires ',' !in home
    requires inputs.loadKey(home + "/.ssh/id_rsa").Some?
    ensures var r := RunExec(DefaultFlags(home, userEnv), inputs);
      && r.Dispatch?
      && |r.configs| == 1
      && r.configs[0].host == "localhost"
      && r.configs[0].user == userEnv
      && r.configs[0].timeout == 15
      && r.configs[0].session.None?
  {
    var f := DefaultFlags(home, userEnv);
    DefaultKeysSplit(home);
    var keys := Split(f.keys, ',');
    assert keys[1] == home + "/.ssh/id_rsa";
    DefaultHostSelection(home, userEnv, inputs.hostFileContents);
  }
}

=== FILE: host.dfy ===
/** The host configuration both per-host variants share: main.go and
    hostconfig.go declare the same struct, the same `String()` and the same
    `StopSession`. */
module Host {
  import opened Wrappers
  import opened Strings
  import opened Ssh

  /** One target host. `session` is the Go `*ssh.Session` field; `None` is nil. */
  datatype HostConfig = HostConfig(
    host: string,
    user: string,
    timeout: int,
    client: ClientConfig,
    session: Option<Session>)

  /** `String()`: the user, then '@', then the host. */
  function Label(cfg: HostConfig): (r: string)
    ensures |r| == |cfg.user| + 1 + |cfg.host|
    ensures r[..|cfg.user|] == cfg.user && r[|cfg.user|] == '@' && r[|cfg.user| + 1..] == cfg.host
  {
    cfg.user + "@" + cfg.host
  }

  /** User and host can be read back from the label when neither
      contains '@'. */
  lemma LabelSplit(cfg: HostConfig)
    requires '@' !in cfg.user && '@' !in cfg.host
    ensures Split(Label(cfg), '@') == [cfg.user, cfg.host]
  {
    assert Label(cfg) == cfg.user + ['@'] + cfg.host;
    SplitPair(cfg.user, cfg.host, '@');
  }

  datatype Stopped = Stopped(config: HostConfig, events: seq<Event>)

  /** `StopSession`: nothing happens without a session; otherwise the
      stored session is closed, and stays stored. */
  function StopSession(cfg: HostConfig): (r: Stopped)
    ensures cfg.session.None? ==> r.config == cfg && r.events == []
    ensures cfg.session.Some? ==>
      && r.events == [Closed(cfg.session.value.addr)]
      && r.config.session == Some(Session(cfg.session.value.addr, true))
    ensures r.config.(session := cfg.session) == cfg
  {
    match cfg.session
    case None => Stopped(cfg, [])
    case Some(s) => Stopped(cfg.(session := Some(s.(closed := true))), [Closed(s.addr)])
  }

  /** Stopping twice leaves the same state as stopping once. */
  lemma StopSessionIdempotent(cfg: HostConfig)
    ensures StopSession(StopSession(cfg).config).config == StopSession(cfg).config
  {
  }
}

=== FILE: host_session.dfy ===
/** The per-host session logic of hostconfig.go: a host configuration that
    lazily opens one SSH session, runs commands on it and reports a tagged
    `(stdout, error)` result. */
module HostSession {
  import opened Wrappers
  import opened Strings
  import opened Ssh
  import opened Host

  datatype Started = Started(config: HostConfig, result: Result<Session, string>, events: seq<Event>)

  datatype Exec = Exec(config: HostConfig, stdout: string, err: Option<string>, events: seq<Event>)

  /** The address handed to the dialler: the port defaults to 22 only when
      the host names none. */
  function DialAddress(host: string): (addr: string)
    ensures ':' in addr
    ensures |host| <= |addr| && addr[..|host|] == host
    ensures ':' in host ==> addr == host
    ensures ':' !in host ==> Split(addr, ':') == [host, "22"]
  {
    if ':' !in host then
      assert host + ":22" == host + [':'] + "22";
      SplitPair(host, "22", ':');
      host + ":22"
    else host
  }

  /** Defaulting the port is idempotent. */
  lemma DialAddressIdempotent(host: string)
    ensures DialAddress(DialAddress(host)) == DialAddress(host)
  {
  }

  /** `StartSession`: dial the defaulted address, then open a session on the
      connection. A dial error leaves the configuration alone; a session
      error stores the nil session the library returned. */
  function StartSession(cfg: HostConfig, net: Network): (r: Started)
    ensures r.result.Success? <==>
      net.dial(DialAddress(cfg.host), cfg.client).Pass? && net.newSession(DialAddress(cfg.host)).Pass?
    ensures r.result.Success? ==>
      r.result.value == Session(DialAddress(cfg.host), false) && r.config == cfg.(session := Some(r.result.value))
    ensures net.dial(DialAddress(cfg.host), cfg.client).Fail? ==>
      r.config == cfg && r.result == Failure(net.dial(DialAddress(cfg.host), cfg.client).error)
    ensures net.dial(DialAddress(cfg.host), cfg.client).Pass? && net.newSession(DialAddress(cfg.host)).Fail? ==>
      r.config == cfg.(session := None) && r.result == Failure(net.newSession(DialAddress(cfg.host)).error)
    ensures r.events ==
      [Dialled(DialAddress(cfg.host))] + (if r.result.Success? then [Opened(DialAddress(cfg.host))] else [])
    ensures Opens(r.events) == (if r.result.Success? then 1 else 0)
    ensures forall i :: 0 <= i < |r.events| ==> !r.events[i].Ran?
  {
    var addr := DialAddress(cfg.host);
    var o := Open(addr, cfg.client, net);
    match o.result
    case Success(s) => Started(cfg.(session := Some(s)), o.result, o.events)
    case Failure(_) =>
      if net.dial(addr, cfg.client).Fail? then Started(cfg, o.result, o.events)
      else Started(cfg.(session := None), o.result, o.events)
  }

  /** `ExecuteCmd`: opens a session only when none is stored; a failed open
      yields `("", err)`, otherwise the command's captured stdout with a nil
      error, whatever the run itself reported. */
  function ExecuteCmd(cfg: HostConfig, cmd: string, net: Network): (r: Exec)
    ensures r.err.Some? <==>
      cfg.session.None? &&
      !(net.dial(DialAddress(cfg.host), cfg.client).Pass? && net.newSession(DialAddress(cfg.host)).Pass?)
    ensures r.err.Some? ==> r.stdout == "" && r.config == cfg
    ensures r.err.Some? ==>
      var addr := DialAddress(cfg.host);
      && r.events == [Dialled(addr)]
      && r.err.value == (if net.dial(addr, cfg.client).Fail? then net.dial(addr, cfg.client).error
                         else net.newSession(addr).error)
    ensures r.err.None? ==>
      && r.config.session.Some?
      && r.stdout == net.run(r.config.session.value, cmd).stdout
      && |r.events| > 0
      && r.events[|r.events| - 1] == Ran(r.config.session.value.addr, cmd)
    ensures cfg.session.None? && r.err.None? ==>
      r.config.session == Some(Session(DialAddress(cfg.host), false))
    ensures cfg.session.Some? ==>
      r.config == cfg && r.events == [Ran(cfg.session.value.addr, cmd)]
    ensures r.config.(session := cfg.session) == cfg
    ensures Opens(r.events) == (if cfg.session.None? && r.err.None? then 1 else 0)
  {
    match cfg.session
    case Some(s) =>
      assert Opens([Ran(s.addr, cmd)]) == 0;
      Exec(cfg, net.run(s, cmd).stdout, None, [Ran(s.addr, cmd)])
    case None =>
      var st := StartSession(cfg, net);
      match st.result
      case Failure(e) => Exec(cfg, "", Some(e), st.events)
      case Success(s) =>
        OpensConcat(st.events, [Ran(s.addr, cmd)]);
        assert Opens([Ran(s.addr, cmd)]) == 0;
        Exec(st.config, net.run(s, cmd).stdout, None, st.events + [Ran(s.addr, cmd)])
  }

  datatype Batch = Batch(config: HostConfig, results: seq<(string, Option<string>)>, events: seq<Event>)

  /** Several `ExecuteCmd` calls on the same configuration, in order. No
      path of the program does this: `Execute` hands each goroutine its own
      copy of the configuration, so a stored session is dropped with the copy
      and the next command opens a fresh one. This states what the method
      itself guarantees to a caller that keeps the configuration. */
  function ExecuteEach(cfg: HostConfig, cmds: seq<string>, net: Network): (b: Batch)
    ensures |b.results| == |cmds|
    decreases |cmds|
  {
    if |cmds| == 0 then Batch(cfg, [], [])
    else
      var e := ExecuteCmd(cfg, cmds[0], net);
      var rest := ExecuteEach(e.config, cmds[1..], net);
      Batch(rest.config, [(e.stdout, e.err)] + rest.results, e.events + rest.events)
  }

  /** However many commands run on one configuration, at most one session is
      ever opened for it, and none once a session is stored. */
  lemma {:induction false} AtMostOneSession(cfg: HostConfig, cmds: seq<string>, net: Network)
    ensures Opens(ExecuteEach(cfg, cmds, net).events) <= (if cfg.session.None? then 1 else 0)
    decreases |cmds|
  {
    if |cmds| > 0 {
      var e := ExecuteCmd(cfg, cmds[0], net);
      AtMostOneSession(e.config, cmds[1..], net);
      OpensConcat(e.events, ExecuteEach(e.config, cmds[1..], net).events);
    }
  }

  /** A stopped configuration still holds its (closed) session, so a later
      `ExecuteCmd` runs on it instead of opening a new one. */
  lemma ExecuteAfterStop(cfg: HostConfig, cmd: string, net: Network)
    requires cfg.session.Some?
    ensures Opens(ExecuteCmd(StopSession(cfg).config, cmd, net).events) == 0
    ensures ExecuteCmd(StopSession(cfg).config, cmd, net).stdout ==
      net.run(Session(cfg.session.value.addr, true), cmd).stdout
  {
  }
}

=== FILE: legacy_host.dfy ===
/** The older per-host session logic kept in main.go: the same host
    configuration, but the dial address always gets ":22" appended and
    `ExecuteCmd` folds a connection error into the same labelled text as the
    command's output. Terminal colouring of the label is taken as the
    identity. */
module LegacyHost {
  import opened Wrappers
  import opened Strings
  import opened Ssh
  import opened Host

  datatype Started = Started(config: HostConfig, result: Result<Session, string>, events: seq<Event>)

  datatype Exec = Exec(config: HostConfig, output: string, events: seq<Event>)

  /** The address handed to the dialler: port 22 is appended unconditionally,
      so the part before the last ':' is always the host as written. */
  function DialAddress(host: string): (addr: string)
    ensures |addr| == |host| + 3 && addr[..|host|] == host
    ensures Split(addr, ':') == Split(host, ':') + ["22"]
  {
    assert host + ":22" == host + [':'] + "22";
    SplitAround(host, "22", ':');
    SplitNoSep("22", ':');
    host + ":22"
  }

  /** The line that introduces one host's result block. */
  function Header(cfg: HostConfig): string
  {
    Label(cfg) + ":" + " \n"
  }

  /** `StartSession`: dial `host:22`, then open a session on the connection.
      A dial error leaves the configuration alone; a session error stores the
      nil session the library returned. */
  function StartSession(cfg: HostConfig, net: Network): (r: Started)
    ensures r.result.Success? <==>
      net.dial(DialAddress(cfg.host), cfg.client).Pass? && net.newSession(DialAddress(cfg.host)).Pass?
    ensures r.result.Success? ==>
      r.result.value == Session(DialAddress(cfg.host), false) && r.config == cfg.(session := Some(r.result.value))
    ensures net.dial(DialAddress(cfg.host), cfg.client).Fail? ==>
      r.config == cfg && r.result == Failure(net.dial(DialAddress(cfg.host), cfg.client).error)
    ensures net.dial(DialAddress(cfg.host), cfg.client).Pass? && net.newSession(DialAddress(cfg.host)).Fail? ==>
      r.config == cfg.(session := None) && r.result == Failure(net.newSession(DialAddress(cfg.host)).error)
    ensures r.events ==
      [Dialled(DialAddress(cfg.host))] + (if r.result.Success? then [Opened(DialAddress(cfg.host))] else [])
    ensures Opens(r.events) == (if r.result.Success? then 1 else 0)
  {
    var addr := DialAddress(cfg.host);
    var o := Open(addr, cfg.client, net);
    match o.result
    case Success(s) => Started(cfg.(session := Some(s)), o.result, o.events)
    case Failure(_) =>
      if net.dial(addr, cfg.client).Fail? then Started(cfg, o.result, o.events)
      else Started(cfg.(session := None), o.result, o.events)
  }

  /** `ExecuteCmd`: opens a session only when none is stored, then renders
      the host's header followed by either the open error's text or the
      command's captured stdout. */
  function ExecuteCmd(cfg: HostConfig, cmd: string, net: Network): (r: Exec)
    ensures |Header(cfg)| <= |r.output| && r.output[..|Header(cfg)|] == Header(cfg)
    ensures
      var up := net.dial(DialAddress(cfg.host), cfg.client).Pass? && net.newSession(DialAddress(cfg.host)).Pass?;
      if cfg.session.None? && !up then
        && r.config == cfg
        && r.output[|Header(cfg)|..] == Open(DialAddress(cfg.host), cfg.client, net).result.error
      else
        && r.config.session.Some?
        && r.output[|Header(cfg)|..] == net.run(r.config.session.value, cmd).stdout
        && |r.events| > 0
        && r.events[|r.events| - 1] == Ran(r.config.session.value.addr, cmd)
    ensures
      var up := net.dial(DialAddress(cfg.host), cfg.client).Pass? && net.newSession(DialAddress(cfg.host)).Pass?;
      && (cfg.session.None? && up ==> r.config.session == Some(Session(DialAddress(cfg.host), false)))
      && Opens(r.events) == (if cfg.session.None? && up then 1 else 0)
    ensures cfg.session.Some? ==> r.config == cfg && r.events == [Ran(cfg.session.value.addr, cmd)]
    ensures r.config.(session := cfg.session) == cfg
  {
    match cfg.session
    case Some(s) =>
      assert Opens([Ran(s.addr, cmd)]) == 0;
      Exec(cfg, Header(cfg) + net.run(s, cmd).stdout, [Ran(s.addr, cmd)])
    case None =>
      var st := StartSession(cfg, net);
      match st.result
      case Failure(e) => Exec(cfg, Header(cfg) + e, st.events)
      case Success(s) =>
        OpensConcat(st.events, [Ran(s.addr, cmd)]);
        assert Opens([Ran(s.addr, cmd)]) == 0;
        Exec(st.config, Header(cfg) + net.run(s, cmd).stdout, st.events + [Ran(s.addr, cmd)])
  }

  /** A connection error and a command whose output happens to be the same
      text render identically: the string result cannot tell them apart. */
  lemma ErrorIndistinguishableFromOutput(cfg: HostConfig, cmd: string, down: Network, up: Network)
    requires cfg.session.None?
    requires down.dial(DialAddress(cfg.host), cfg.client).Fail?
    requires up.dial(DialAddress(cfg.host), cfg.client).Pass? && up.newSession(DialAddress(cfg.host)).Pass?
    requires up.run(Session(DialAddress(cfg.host), false), cmd).stdout ==
      down.dial(DialAddress(cfg.host), cfg.client).error
    ensures ExecuteCmd(cfg, cmd, down).output == ExecuteCmd(cfg, cmd, up).output
  {
    var h := Header(cfg);
    var a := ExecuteCmd(cfg, cmd, down).output;
    var b := ExecuteCmd(cfg, cmd, up).output;
    assert a == a[..|h|] + a[|h|..];
    assert b == b[..|h|] + b[|h|..];
  }
}

=== FILE: seqs.dfy ===
/** Keep-what-succeeds over a sequence: the shape shared by the host-file
    line filter and the key loader, both of which walk their input once and
    append only the items that produced a value. */
module Seqs {
  import opened Wrappers

  /** Applies `f` to every element in order and keeps the values of the
      calls that returned `Some`. */
  function FilterMap<A, B>(s: seq<A>, f: A -> Option<B>): (r: seq<B>)
    ensures |r| <= |s|
  {
    if |s| == 0 then []
    else
      var rest := FilterMap(s[1..], f);
      match f(s[0])
      case Some(b) => [b] + rest
      case None => rest
  }

  /** A one-element sequence keeps its value exactly when it has one. */
  lemma FilterMapSingle<A, B>(x: A, f: A -> Option<B>)
    ensures FilterMap([x], f) == (if f(x).Some? then [f(x).value] else [])
  {
    assert [x][1..] == [];
  }

  /** Order is kept: filtering a concatenation filters each part in turn. */
  lemma {:induction false} FilterMapConcat<A, B>(a: seq<A>, b: seq<A>, f: A -> Option<B>)
    ensures FilterMap(a + b, f) == FilterMap(a, f) + FilterMap(b, f)
    decreases |a|
  {
    if |a| == 0 {
      assert a + b == b;
    } else {
      assert (a + b)[1..] == a[1..] + b;
      FilterMapConcat(a[1..], b, f);
    }
  }

  /** A value is kept exactly when some element produced it. */
  lemma {:induction false} FilterMapMember<A, B>(s: seq<A>, f: A -> Option<B>, y: B)
    ensures y in FilterMap(s, f) <==> exists i :: 0 <= i < |s| && f(s[i]) == Some(y)
    decreases |s|
  {
    if |s| > 0 {
      FilterMapMember(s[1..], f, y);
      if exists i :: 0 <= i < |s| && f(s[i]) == Some(y) {
        var i :| 0 <= i < |s| && f(s[i]) == Some(y);
        if i > 0 {
          assert f(s[1..][i - 1]) == Some(y);
        }
      }
    }
  }

  /** Nothing is kept exactly when every element fails. */
  lemma {:induction false} FilterMapEmpty<A, B>(s: seq<A>, f: A -> Option<B>)
    ensures FilterMap(s, f) == [] <==> forall i :: 0 <= i < |s| ==> f(s[i]).None?
    decreases |s|
  {
    if |s| > 0 {
      FilterMapEmpty(s[1..], f);
      if forall i :: 0 <= i < |s[1..]| ==> f(s[1..][i]).None? {
        assert forall i :: 1 <= i < |s| ==> f(s[i]).None? by {
          forall i | 1 <= i < |s| ensures f(s[i]).None? {
            assert s[i] == s[1..][i - 1];
          }
        }
      }
    }
  }

  /** When every element succeeds, every value is kept, in place. */
  lemma {:induction false} FilterMapTotal<A, B>(s: seq<A>, f: A -> Option<B>)
    requires forall i :: 0 <= i < |s| ==> f(s[i]).Some?
    ensures |FilterMap(s, f)| == |s|
    ensures forall i :: 0 <= i < |s| ==> f(s[i]) == Some(FilterMap(s, f)[i])
    decreases |s|
  {
    if |s| > 0 {
      FilterMapTotal(s[1..], f);
    }
  }

  /** Concatenation regroups freely. */
  lemma AppendAssoc<T>(a: seq<T>, b: seq<T>, c: seq<T>)
    ensures a + b + c == a + (b + c)
  {
  }

  /** Padding around padding is padding: the inner and outer runs regroup. */
  lemma AppendRegroup<T>(a: seq<T>, b: seq<T>, c: seq<T>, d: seq<T>, e: seq<T>)
    ensures a + (b + c + d) + e == (a + b) + c + (d + e)
  {
  }

  /** Dropping the head of a concatenation drops it from the first part. */
  lemma DropFirstConcat<T>(a: seq<T>, b: seq<T>)
    requires |a| > 0
    ensures (a + b)[1..] == a[1..] + b
  {
  }
}

=== FILE: ssh.dfy ===
/** The slice of the SSH client library the program touches, reduced to
    abstract outcomes: whether dialling an address succeeds, whether a
    session can be opened on the connection, and what running a command on a
    session writes to standard output. Every dial attempt, every session
    actually opened, every run and every close is recorded as an Event, so
    that "how many sessions were opened" is observable; a failed
    `NewSession` leaves no event of its own. */
module Ssh {
  import opened Wrappers

  /** An authentication method built from one parsed private key. */
  datatype AuthMethod = PublicKeys(signer: nat)

  /** The client configuration handed to the dialler: user and auth list. */
  datatype ClientConfig = ClientConfig(user: string, auth: seq<AuthMethod>)

  /** An open (or later closed) session on the connection to `addr`. */
  datatype Session = Session(addr: string, closed: bool)

  /** What one `Session.Run` produced: captured stdout and its own error. */
  datatype RunOutcome = RunOutcome(stdout: string, err: Option<string>)

  /** The behaviour of the remote world, as parameters of the model. */
  datatype Network = Network(
    dial: (string, ClientConfig) -> Outcome<string>,
    newSession: string -> Outcome<string>,
    run: (Session, string) -> RunOutcome)

  /** An observable call into the library. */
  datatype Event =
    | Dialled(addr: string)
    | Opened(addr: string)
    | Ran(addr: string, cmd: string)
    | Closed(addr: string)

  datatype Opening = Opening(result: Result<Session, string>, events: seq<Event>)

  /** `ssh.Dial` followed by `conn.NewSession`, stopping at the first error. */
  function Open(addr: string, client: ClientConfig, net: Network): (o: Opening)
    ensures o.result.Success? <==> net.dial(addr, client).Pass? && net.newSession(addr).Pass?
    ensures o.result.Success? ==> o.result.value == Session(addr, false)
    ensures net.dial(addr, client).Fail? ==> o.result == Failure(net.dial(addr, client).error)
    ensures net.dial(addr, client).Pass? && net.newSession(addr).Fail? ==>
      o.result == Failure(net.newSession(addr).error)
    ensures o.events == [Dialled(addr)] + (if o.result.Success? then [Opened(addr)] else [])
    ensures Opens(o.events) == (if o.result.Success? then 1 else 0)
    ensures forall i :: 0 <= i < |o.events| ==> !o.events[i].Ran?
  {
    match net.dial(addr, client)
    case Fail(e) => Opening(Failure(e), [Dialled(addr)])
    case Pass =>
      match net.newSession(addr)
      case Fail(e) => Opening(Failure(e), [Dialled(addr)])
      case Pass =>
        var events := [Dialled(addr), Opened(addr)];
        assert events[1..] == [Opened(addr)] && [Opened(addr)][1..] == [];
        assert Opens([Opened(addr)]) == 1;
        Opening(Success(Session(addr, false)), events)
  }

  /** Number of sessions a trace opened. */
  function Opens(events: seq<Event>): nat
  {
    if |events| == 0 then 0
    else (if events[0].Opened? then 1 else 0) + Opens(events[1..])
  }

  lemma {:induction false} OpensConcat(a: seq<Event>, b: seq<Event>)
    ensures Opens(a + b) == Opens(a) + Opens(b)
    decreases |a|
  {
    if |a| == 0 {
      assert a + b == b;
    } else {
      assert (a + b)[1..] == a[1..] + b;
      OpensConcat(a[1..], b);
    }
  }
}

=== FILE: strings.dfy ===
/** The parts of Go's `strings` package the program relies on: trimming by a
    character class (`Trim`, `TrimSpace`), splitting on a one-character
    separator (`Split`) and its inverse (`Join`). */
module Strings {

  /** Go's `unicode.IsSpace` restricted to ASCII: space, \t, \n, \v, \f, \r. */
  predicate IsSpace(c: char) {
    c == ' ' || c == '\t' || c == '\n' || c == '\U{000B}' || c == '\U{000C}' || c == '\r'
  }

  /** The cut set "\n" of `strings.Trim(s, "\n")`. */
  predicate IsNewline(c: char) {
    c == '\n'
  }

  /** Every character of `s` is in the class `cut`. */
  predicate All(s: string, cut: char -> bool) {
    forall i :: 0 <= i < |s| ==> cut(s[i])
  }

  /** `s` neither starts nor ends with a character of the class `cut`. */
  predicate Bare(s: string, cut: char -> bool) {
    |s| == 0 || (!cut(s[0]) && !cut(s[|s| - 1]))
  }

  /** `s` is `r` with runs of `cut` characters added on both sides. */
  ghost predicate Padded(s: string, r: string, cut: char -> bool) {
    exists pre, suf :: All(pre, cut) && All(suf, cut) && s == pre + r + suf
  }

  /** Length of the run of `cut` characters that starts `s`. */
  function LeadingRun(s: string, cut: char -> bool): (n: nat)
    ensures n <= |s|
    ensures All(s[..n], cut)
    ensures n == |s| || !cut(s[n])
  {
    if |s| > 0 && cut(s[0]) then
      var n := 1 + LeadingRun(s[1..], cut);
      assert s[..n] == [s[0]] + s[1..][..n - 1];
      n
    else 0
  }

  /** Drops the leading characters of class `cut`. */
  function TrimLeft(s: string, cut: char -> bool): (r: string)
    ensures |r| <= |s|
    ensures All(s[..|s| - |r|], cut)
    ensures r == s[|s| - |r|..]
    ensures |r| == 0 || !cut(r[0])
  {
    s[LeadingRun(s, cut)..]
  }

  /** Drops the trailing characters of class `cut`. */
  function TrimRight(s: string, cut: char -> bool): (r: string)
    ensures |r| <= |s| && r == s[..|r|]
    ensures All(s[|r|..], cut)
    ensures |r| == 0 || !cut(r[|r| - 1])
  {
    if |s| > 0 && cut(s[|s| - 1]) then TrimRight(s[..|s| - 1], cut) else s
  }

  /** Go's `strings.TrimFunc`: the result has no `cut` character at either
      end, and the input is the result padded with `cut` characters. */
  function Trim(s: string, cut: char -> bool): (r: string)
    ensures |r| <= |s|
    ensures Bare(r, cut)
  {
    TrimRight(TrimLeft(s, cut), cut)
  }

  lemma TrimPadded(s: string, cut: char -> bool)
    ensures Padded(s, Trim(s, cut), cut)
  {
    var l := TrimLeft(s, cut);
    var r := TrimRight(l, cut);
    assert s == s[..|s| - |l|] + r + l[|r|..];
  }

  /** Go's `strings.TrimSpace` over the ASCII whitespace class. */
  function TrimSpace(s: string): (r: string)
    ensures |r| <= |s|
    ensures Bare(r, IsSpace)
  {
    Trim(s, IsSpace)
  }

  lemma {:induction false} TrimLeftSkips(pre: string, x: string, cut: char -> bool)
    requires All(pre, cut)
    requires |x| == 0 || !cut(x[0])
    ensures TrimLeft(pre + x, cut) == x
    decreases |pre|
  {
    if |pre| == 0 {
      assert pre + x == x;
    } else {
      assert (pre + x)[1..] == pre[1..] + x;
      TrimLeftSkips(pre[1..], x, cut);
    }
  }

  lemma {:induction false} TrimRightSkips(x: string, suf: string, cut: char -> bool)
    requires All(suf, cut)
    requires |x| == 0 || !cut(x[|x| - 1])
    ensures TrimRight(x + suf, cut) == x
    decreases |suf|
  {
    if |suf| == 0 {
      assert x + suf == x;
    } else {
      assert (x + suf)[..|x + suf| - 1] == x + suf[..|suf| - 1];
      TrimRightSkips(x, suf[..|suf| - 1], cut);
    }
  }

  lemma AllConcat(a: string, b: string, cut: char -> bool)
    requires All(a, cut) && All(b, cut)
    ensures All(a + b, cut)
  {
  }

  /** Trimming is determined by its contract: whatever the padding, the
      trimmed text is the bare core. */
  lemma TrimOfPadded(s: string, r: string, cut: char -> bool)
    requires Bare(r, cut)
    requires Padded(s, r, cut)
    ensures Trim(s, cut) == r
  {
    var pre, suf :| All(pre, cut) && All(suf, cut) && s == pre + r + suf;
    if |r| == 0 {
      AllConcat(pre, suf, cut);
      assert s == (pre + suf) + "";
      TrimLeftSkips(pre + suf, "", cut);
    } else {
      assert s == pre + (r + suf);
      TrimLeftSkips(pre, r + suf, cut);
      TrimRightSkips(r, suf, cut);
    }
  }

  /** Trimming twice is trimming once. */
  lemma TrimIdempotent(s: string, cut: char -> bool)
    ensures Trim(Trim(s, cut), cut) == Trim(s, cut)
  {
    var r := Trim(s, cut);
    assert All("", cut);
    assert r == "" + r + "";
    TrimOfPadded(r, r, cut);
  }

  /** Number of occurrences of `c` in `s`. */
  function Count(s: string, c: char): nat
  {
    if |s| == 0 then 0 else (if s[0] == c then 1 else 0) + Count(s[1..], c)
  }

  /** Go's `strings.Split(s, string(sep))`: at least one piece, none of them
      containing the separator. */
  function Split(s: string, sep: char): (parts: seq<string>)
    ensures |parts| >= 1
    ensures forall i :: 0 <= i < |parts| ==> sep !in parts[i]
    decreases |s|
  {
    if |s| == 0 then [""]
    else
      var rest := Split(s[1..], sep);
      if s[0] == sep then [""] + rest
      else [[s[0]] + rest[0]] + rest[1..]
  }

  /** There is one piece more than there are separators. */
  lemma {:induction false} SplitCount(s: string, sep: char)
    ensures |Split(s, sep)| == Count(s, sep) + 1
    decreases |s|
  {
    if |s| > 0 {
      SplitCount(s[1..], sep);
    }
  }

  /** Go's `strings.Join(parts, string(sep))`: the first piece comes first,
      followed by the separator when more pieces follow. */
  function Join(parts: seq<string>, sep: char): (r: string)
    ensures |parts| > 0 ==> |parts[0]| <= |r| && r[..|parts[0]|] == parts[0]
    ensures |parts| > 1 ==> |parts[0]| < |r| && r[|parts[0]|] == sep
    ensures |parts| == 0 ==> r == ""
  {
    if |parts| == 0 then ""
    else if |parts| == 1 then parts[0]
    else parts[0] + [sep] + Join(parts[1..], sep)
  }

  /** Joining the pieces with the separator gives back the input. */
  lemma {:induction false} JoinSplit(s: string, sep: char)
    ensures Join(Split(s, sep), sep) == s
    decreases |s|
  {
    if |s| > 0 {
      var rest := Split(s[1..], sep);
      JoinSplit(s[1..], sep);
      assert [s[0]] + s[1..] == s;
      if s[0] == sep {
        JoinCons("", rest, sep);
      } else {
        JoinExtendFirst(s[0], rest, sep);
      }
    }
  }

  lemma JoinCons(p: string, rest: seq<string>, sep: char)
    requires |rest| >= 1
    ensures Join([p] + rest, sep) == p + [sep] + Join(rest, sep)
  {
    assert ([p] + rest)[1..] == rest;
  }

  lemma JoinExtendFirst(c: char, parts: seq<string>, sep: char)
    requires |parts| >= 1
    ensures Join([[c] + parts[0]] + parts[1..], sep) == [c] + Join(parts, sep)
  {
    if |parts| > 1 {
      JoinCons([c] + parts[0], parts[1..], sep);
      JoinCons(parts[0], parts[1..], sep);
      assert [parts[0]] + parts[1..] == parts;
    }
  }

  /** A leading separator contributes one empty piece. */
  lemma SplitLeadingSep(s: string, sep: char)
    ensures Split([sep] + s, sep) == [""] + Split(s, sep)
  {
    assert ([sep] + s)[1..] == s;
  }

  /** A string without the separator is a single piece. */
  lemma {:induction false} SplitNoSep(s: string, sep: char)
    requires sep !in s
    ensures Split(s, sep) == [s]
    decreases |s|
  {
    if |s| > 0 {
      SplitNoSep(s[1..], sep);
      assert [s[0]] + s[1..] == s;
    }
  }

  /** Splitting distributes over a separator occurrence. */
  lemma {:induction false} SplitAround(a: string, b: string, sep: char)
    ensures Split(a + [sep] + b, sep) == Split(a, sep) + Split(b, sep)
    decreases |a|
  {
    var s := a + [sep] + b;
    if |a| == 0 {
      assert s[1..] == b;
    } else {
      assert s[1..] == a[1..] + [sep] + b;
      SplitAround(a[1..], b, sep);
    }
  }

  /** Two separator-free pieces joined by the separator split back apart. */
  lemma SplitPair(a: string, b: string, sep: char)
    requires sep !in a && sep !in b
    ensures Split(a + [sep] + b, sep) == [a, b]
  {
    SplitAround(a, b, sep);
    SplitNoSep(a, sep);
    SplitNoSep(b, sep);
  }

  /** Pieces without the separator survive a join-then-split round trip. */
  lemma {:induction false} SplitJoin(parts: seq<string>, sep: char)
    requires |parts| >= 1
    requires forall i :: 0 <= i < |parts| ==> sep !in parts[i]
    ensures Split(Join(parts, sep), sep) == parts
    decreases |parts|
  {
    SplitNoSep(parts[0], sep);
    if |parts| > 1 {
      SplitJoin(parts[1..], sep);
      SplitAround(parts[0], Join(parts[1..], sep), sep);
      assert [parts[0]] + parts[1..] == parts;
    }
  }
}

=== FILE: variants.dfy ===
/** How the two per-host variants relate: the main.go one is the
    hostconfig.go one with an unconditional ":22" and with the tagged result
    flattened into one labelled string. */
module Variants {
  import opened Wrappers
  import opened Ssh
  import Host
  import LegacyHost
  import HostSession

  /** Without a port both variants dial the same address; with one, the
      older variant appends a second ":22" ("h:2222" becomes "h:2222:22"). */
  lemma DialAddressesCompared(host: string)
    ensures ':' !in host ==> LegacyHost.DialAddress(host) == HostSession.DialAddress(host)
    ensures ':' in host ==> LegacyHost.DialAddress(host) == HostSession.DialAddress(host) + ":22"
  {
  }

  /** When both variants dial the same address, the older one's output is
      the newer one's tagged result rendered under the host header: the
      error text on failure, the captured stdout otherwise. The calls made
      into the library are the same. */
  lemma LegacyRendersTagged(c: Host.HostConfig, cmd: string, net: Network)
    requires c.session.Some? || ':' !in c.host
    ensures
      var t := HostSession.ExecuteCmd(c, cmd, net);
      var l := LegacyHost.ExecuteCmd(c, cmd, net);
      && l.output == LegacyHost.Header(c) + (if t.err.Some? then t.err.value else t.stdout)
      && l.events == t.events
      && l.config == t.config
  {
    DialAddressesCompared(c.host);
  }
}

=== FILE: wrappers.dfy ===
/** Failure-carrying datatypes used across the model: a Go `nil`-able value
    becomes an Option, a `(value, error)` pair becomes a Result, and an
    `error` return on its own becomes an Outcome. */
module Wrappers {

  datatype Option<+T> = None | Some(value: T)

  datatype Result<+T, +E> = Success(value: T) | Failure(error: E)

  datatype Outcome<+E> = Pass | Fail(error: E)
}
